=== FILE: README.md ===
# Aoxe.Mongo client core, modelled in Dafny

`AoxeMongoClient` is a thin generic layer over the MongoDB .NET driver. Its
own logic is small. For an entity type it resolves the collection name (the
`[Table]` attribute's name, else the type name) and the identifier property
(the first `[BsonId]` property, else `Id`, `id`, `_id`). It memoises both per
type. For single-entity `Delete`/`Update` it builds a JSON filter
`{"_id":…}` from the identifier's value, and it rejects null arguments before
touching a collection.

This model covers that logic. It is organised by concern:

- `wrappers.dfy` (`Wrappers`): `Option` and `Result`. These stand in for C#
  nulls and exceptions.
- `errors.dfy` (`Errors`): the three exceptions the client throws.
- `clr_types.dfy` (`ClrTypes`): `TypeCode`, the identifier property's type,
  `IsNumericType`, and the GUID representation setting.
- `filter_syntax.dfy` (`FilterSyntax`): the textual shape of an identifier
  filter, a reader for it, and an escaping renderer. The reader gives a
  filter string its syntactic meaning: the literal it carries, in its form
  (bare, string, `UUID`, `CSUUID`) and its text. It accepts a bare literal
  only when it is a number token.
- `id_filter.dfy` (`IdFilter`): filter synthesis. `FilterJson` is the code as
  written, and the client operations use it. `EscapedFilterJson` and
  `IntendedFilterJson` are corrected forms (see Findings).
- `metadata.dfy` (`Metadata`): property and type records, identifier
  resolution, and collection-name resolution.
- `metadata_cache.dfy` (`MetadataCache`): the two `ConcurrentDictionary`
  caches, modelled as a value threaded through each call.
- `client.dfy` (`Client`): the public operations. Each returns the driver
  call it would issue (a `StoreCall`) or the exception it would throw, plus
  the client state afterwards.

Three behaviours of the code are worth stating plainly:

- Java-legacy and Python-legacy GUID representations have no tag of their
  own. They produce `UUID("…")` exactly like `Standard` and `Unspecified`.
  Only `CSharpLegacy` produces `CSUUID("…")`.
- An enum identifier is not quoted. `Type.GetTypeCode` reports an enum by its
  underlying integral code, so `IsNumericType` holds and the value text is
  written bare (`IdFilter.EnumIdIsUnquoted`).
- `Add`/`AddRange` do no null check of their own.

Inputs the model takes as parameters instead of computing:

- The text a value renders to (`ToString` inside string interpolation) is an
  opaque string. A null value renders as empty text.
- Reflection is replaced by explicit records. A type is a `TypeDescriptor`
  holding its name, its optional `[Table]` name and its properties in
  declaration order.

## Model

| member | source | states |
|---|---|---|
| ClrTypes.IsNumericType | src/Aoxe.Mongo/AoxeMongoClient.cs:227-242 | numeric exactly for the eleven TypeCodes numbered 5..15 (SByte through Decimal); so Boolean, Char, DateTime, String and Object are not numeric |
| IdFilter.IdLiteralFor | src/Aoxe.Mongo/AoxeMongoClient.cs:206-222 | the literal carries the value text unchanged; it is bare iff the type is numeric, `CSUUID` iff Guid under CSharpLegacy, a string iff neither numeric nor Guid; it fails, with the out-of-range error, iff Guid under an unrecognised representation |
| IdFilter.FilterJson | src/Aoxe.Mongo/AoxeMongoClient.cs:206-224 | as written: fails only for a Guid under an unrecognised representation; every filter starts with `{"_id":` and ends with `}`; numeric values go in unquoted, non-numeric non-Guid values in quotes; for values without `"` or `\` it equals the escaped form, so when in addition a numeric value's text is a number token it reads back as the literal the code chose (its form and text) |
| IdFilter.EscapedFilterJson | src/Aoxe.Mongo/AoxeMongoClient.cs:206-224 | escaping correction: same failure cases as the code; a filter it produces reads back as exactly the code's chosen literal whenever a numeric (or enum) value's text is a number token |
| IdFilter.IntendedLiteralFor | src/Aoxe.Mongo/AoxeMongoClient.cs:206-222 | enum correction of the literal choice: same as the code except that an enum id is a string; a bare literal iff numeric and not an enum |
| IdFilter.IntendedFilterJson | src/Aoxe.Mongo/AoxeMongoClient.cs:206-224 | full correction (escaping and quoted enums): same failure cases as the code; every filter reads back as the intended literal whenever a non-enum numeric value's text is a number token; equals the escaping correction for non-enum types |
| IdFilter.EnumNameIdBreaksFilter | src/Aoxe.Mongo/AoxeMongoClient.cs:207-208 | as written, an `Int32` enum id whose text is `Banana` yields `{"_id":Banana}`, which is not a readable identifier filter |
| IdFilter.IntendedEnumIdRoundTrip | src/Aoxe.Mongo/AoxeMongoClient.cs:207-208 | corrected, every enum id reads back from its filter as its own text |
| IdFilter.GuidTagByRepresentation | src/Aoxe.Mongo/AoxeMongoClient.cs:209-219 | a Guid id gives `{"_id":CSUUID("v")}` under CSharpLegacy, `{"_id":UUID("v")}` under the other four named representations, and the out-of-range error otherwise |
| IdFilter.EnumIdIsUnquoted | src/Aoxe.Mongo/AoxeMongoClient.cs:207-208 | an enum, whose underlying type is always one of the eight integral types, takes the numeric branch, so its text is written unquoted |
| IdFilter.InfinityEnumIdReadsAsNumber | src/Aoxe.Mongo/AoxeMongoClient.cs:207-208 | as written, an `Int32` enum id whose member name is `Infinity` yields `{"_id":Infinity}`, which reads back as the bare number `Infinity`, not as the enum member |
| IdFilter.QuoteInStringIdBreaksFilter | src/Aoxe.Mongo/AoxeMongoClient.cs:221-222 | as written, the string id `a"b` yields `{"_id":"a"b"}`, which is not a readable identifier filter |
| IdFilter.BackslashInStringIdSelectsOtherId | src/Aoxe.Mongo/AoxeMongoClient.cs:221-222 | as written, the string id `a\"b` yields a filter that reads back as the different string `a"b` |
| IdFilter.EscapedStringIdRoundTrip | src/Aoxe.Mongo/AoxeMongoClient.cs:221-222 | with escaping, every non-numeric, non-Guid id reads back from its filter as the same string, whatever it contains |
| FilterSyntax.ParseEscaped | src/Aoxe.Mongo/AoxeMongoClient.cs:222 | reading a quoted literal undoes the escaping, for every string |
| FilterSyntax.RenderRoundTrip | src/Aoxe.Mongo/AoxeMongoClient.cs:206-224 | every well-formed identifier literal (a bare number token, or any string/UUID/CSUUID literal) is read back from its rendered filter |
| FilterSyntax.ReaderRefusesTrailingFields | src/Aoxe.Mongo/AoxeMongoClient.cs:208 | pins down the reader's meaning of the bare literal this line writes: `{"_id":1,"x":2}` is not read as an identifier filter, so bare text smuggling extra fields is not a number |
| FilterSyntax.ReaderRefusesBareName | src/Aoxe.Mongo/AoxeMongoClient.cs:208 | pins down the reader's meaning of the bare literal this line writes: `{"_id":Banana}` is not read as an identifier filter: a bare name is not a JSON value |
| FilterSyntax.ReaderReadsExponentNumber | src/Aoxe.Mongo/AoxeMongoClient.cs:208 | pins down the reader's meaning of the bare literal this line writes: a number rendered with sign, fraction and exponent (`-1.5E+3`) is a number token |
| FilterSyntax.RenderInjective | src/Aoxe.Mongo/AoxeMongoClient.cs:206-224 | two well-formed literals render to the same filter iff they are equal, so a rendered filter carries exactly one literal |
| Metadata.FirstIndex | src/Aoxe.Mongo/AoxeMongoClient.cs:250-257 | FirstOrDefault: the position found satisfies the test and no earlier one does; none found means no property satisfies it |
| Metadata.IdPropertyIndex | src/Aoxe.Mongo/AoxeMongoClient.cs:249-260 | the cascade picks the first property of best rank ([BsonId], then `Id`, `id`, `_id`, case-sensitive); it finds nothing only when no property is a candidate |
| Metadata.ResolveIdProperty | src/Aoxe.Mongo/AoxeMongoClient.cs:247-263 | succeeds iff some property is a candidate, else fails with the primary-key error; the result is a member of the type's properties, is the unique best-ranked earliest candidate, and carries [BsonId] whenever any property does |
| MetadataCache.GetTableName | src/Aoxe.Mongo/AoxeMongoClient.cs:266-272 | never fails; on a coherent cache returns the discovered name (`TableName`: the `[Table]` name when present, else the type's name) and keeps the cache coherent; a hit returns the stored name and changes nothing; afterwards the type is cached with the returned name, no other entry changes and the id cache is untouched |
| MetadataCache.GetIdProperty | src/Aoxe.Mongo/AoxeMongoClient.cs:244-264 | on a coherent cache returns the discovered identifier and keeps coherence; a hit returns the stored property; a failed discovery caches nothing; a success caches the property under this type only; the name cache is untouched |
| MetadataCache.TableNameLookupIdempotent | src/Aoxe.Mongo/AoxeMongoClient.cs:266-272 | a second name lookup for a type returns the first lookup's name and changes nothing |
| MetadataCache.IdPropertyLookupIdempotent | src/Aoxe.Mongo/AoxeMongoClient.cs:244-264 | a second identifier lookup for a type returns the first lookup's result, success or failure, and changes nothing |
| MetadataCache.TableNameLookupsCommute | src/Aoxe.Mongo/AoxeMongoClient.cs:7 | from any cache, lookups for two types give the same names and final cache in either order |
| Client.NewClient | src/Aoxe.Mongo/AoxeMongoClient.cs:7-8 | a new client keeps the GUID representation it was given and starts with both caches empty, which is coherent |
| Client.JsonFilterDefinition | src/Aoxe.Mongo/AoxeMongoClient.cs:197-225 | on a coherent cache, a filter it returns is exactly `FilterJson` of the resolved identifier property's type, the entity's value text for it and the client's GUID representation, so it is the code's unescaped text; succeeds iff the identifier resolves and its literal can be formed, with the matching error otherwise; when the identifier's text needs no escaping and a numeric id's text is a number token, the filter reads back as the literal the code chose for the entity's identifier (its form and text); the id cache stays coherent and the name cache is untouched |
| Client.GetQueryable | src/Aoxe.Mongo/AoxeMongoClient.cs:32-37 | queries the collection named by the type's resolved name, and caches that name; the GUID representation and the id cache are unchanged |
| Client.Add | src/Aoxe.Mongo/AoxeMongoClient.cs:39-44 | inserts the entity into the type's collection, and caches the name; the GUID representation and the id cache are unchanged |
| Client.AddRange | src/Aoxe.Mongo/AoxeMongoClient.cs:53-58 | inserts the entities into the type's collection, and caches the name; the GUID representation and the id cache are unchanged |
| Client.Delete | src/Aoxe.Mongo/AoxeMongoClient.cs:69-83 | a null entity fails with ArgumentNull("entity") and leaves the state as it was; otherwise the name is cached even if the filter then fails, the call fails exactly when the filter cannot be formed, and a success is one DeleteOne on the type's collection whose filter is exactly `FilterJson` of the resolved identifier (the code's unescaped text), which reads back as the literal the code chose for the entity's identifier (its form and text) whenever that identifier's text is readable |
| Client.DeleteWhere | src/Aoxe.Mongo/AoxeMongoClient.cs:101-109 | a null predicate fails with ArgumentNull("where") and changes nothing; otherwise one DeleteMany with the predicate on the type's collection; the GUID representation and the id cache are unchanged |
| Client.Update | src/Aoxe.Mongo/AoxeMongoClient.cs:122-141 | a null entity fails with ArgumentNull("entity") and changes nothing; otherwise one UpdateOne on the type's collection, whose filter is exactly `FilterJson` of the resolved identifier (the code's unescaped text), setting the entity's fields, with the same failure cases and the same read-back as Delete |
| Client.UpdateWhere | src/Aoxe.Mongo/AoxeMongoClient.cs:164-177 | a null `update` is reported first, as ArgumentNull("update"), then a null `where`; neither touches the state; otherwise one UpdateMany with both expressions on the type's collection; the GUID representation and the id cache are unchanged |
| Client.DeleteSendsUnescapedFilter | src/Aoxe.Mongo/AoxeMongoClient.cs:78-80 | Delete of an entity whose string `Id` is `a"b` issues DeleteOne with the unescaped filter `{"_id":"a"b"}`, as the code builds it |
| Client.DeleteAndUpdateSelectAlike | src/Aoxe.Mongo/AoxeMongoClient.cs:128-131 | Update (lines 128-131) and Delete (lines 75-78) of the same entity use the same collection and filter, or fail with the same error |

## Findings

| source | as written | input that shows it | evidently intended | confidence | as-written member | corrected member |
|---|---|---|---|---|---|---|
| src/Aoxe.Mongo/AoxeMongoClient.cs:222 | a string id's text is pasted between quotes with no escaping | id `a"b` gives the unreadable filter `{"_id":"a"b"}`; id `a\"b` gives a filter carrying the string `a"b`, so Delete/Update miss the entity and may hit another | the filter carries exactly the entity's own id text, which needs `"` and `\` escaped inside the quotes | medium, not executed | IdFilter.FilterJson, IdFilter.QuoteInStringIdBreaksFilter, IdFilter.BackslashInStringIdSelectsOtherId | IdFilter.EscapedFilterJson, IdFilter.EscapedStringIdRoundTrip |
| src/Aoxe.Mongo/AoxeMongoClient.cs:207-208 | an enum id takes the numeric branch and its text, the member name, is written bare | an `Int32` enum id `Banana` gives `{"_id":Banana}`, which is not JSON; a member named `Infinity` gives `{"_id":Infinity}`, which is the number, not the member | the enum id is written as a quoted string like every other non-numeric value, so the filter is at least well-formed; whether it matches a stored document depends on how the driver stores the enum, which is outside the model | low, not executed | IdFilter.EnumIdIsUnquoted, IdFilter.EnumNameIdBreaksFilter, IdFilter.InfinityEnumIdReadsAsNumber | IdFilter.IntendedFilterJson, IdFilter.IntendedEnumIdRoundTrip |

The client operations (`Client.JsonFilterDefinition`, `Client.Delete`,
`Client.Update`) send the filter exactly as the code builds it
(`IdFilter.FilterJson`); `Client.DeleteSendsUnescapedFilter` shows the first
finding reaching `Delete`. For value text without `"` or `\`, the contract of
`IdFilter.FilterJson` proves it equal to the escaped form, and
`IdFilter.IntendedFilterJson` is the escaped form for every type but enums.

## Left out

- The constructor (lines 12-30) is not modelled beyond the GUID representation it fixes. Its serializer, convention and `MongoClient`/database setup is global driver configuration. Its null guards, which throw ArgumentNull for a null `options` or a null `MongoClientSettings` (lines 14-17), guard configuration objects the model does not represent.
- The mapping from a property's type to its TypeCode (`ClrTypes.TypeCodeOf`) is an assumption about `Type.GetTypeCode`, not derived from code: Guid reports Object, an enum reports its underlying integral code, other types report their own code.
- Driver behaviour is foreign code. This covers what `InsertOne`/`InsertMany`, `DeleteOne`/`DeleteMany`, `UpdateOne`/`UpdateMany` and `AsQueryable` do, the counts they return, and how `ToBsonDocument` builds the `$set` document. Operations end at the `StoreCall` they issue.
- The async variants (`AddAsync`, `AddRangeAsync`, both `DeleteAsync`s, both `UpdateAsync`s) differ from the sync ones only by awaiting the driver. The sync model stands for both.
- The caches' thread safety is not modelled. They are modelled sequentially; concurrency is out of scope.
- `ToString` rendering of values depends on culture and floating-point formatting, so it is an opaque input string.
- Reflection mechanics are not modelled. `GetProperties` is taken to list properties in declaration order. `GetProperty(name)` is taken to find the first property with that name. The `AmbiguousMatchException` it throws when a derived class hides a property by name is not modelled.
- Client.Add: does not model a null entity, because the client does not check it and the driver's own rejection is foreign code.
- Client.AddRange: does not model a null collection or null elements, for the same reason.
- Client.Delete: the filter text itself is stated for every id (it is `FilterJson`'s); its read-back through the reader is stated only when the identifier's text is readable (`ReadableId`): it holds no `"` or `\`, and a numeric id's text is a number token. Ids outside this are the two Findings. Enum member names are not number tokens except `NaN` and `Infinity`, which C# allows as member names; those qualify and read back as the bare number (`IdFilter.InfinityEnumIdReadsAsNumber`).
- Client.Update: the same `ReadableId` restriction as Delete applies to its filter read-back.
- Client.JsonFilterDefinition: the same `ReadableId` restriction applies to its filter read-back.
- IdFilter.EscapedFilterJson: its read-back is stated only when a numeric value's text is a number token; it keeps the code's bare enum literal, so an enum member name is not covered, and a member named `NaN` or `Infinity` reads back as that number (the enum correction is `IdFilter.IntendedFilterJson`).
- IdFilter.IntendedFilterJson: its read-back assumes a non-enum numeric value renders as a number token, which holds for .NET number renderings in an invariant culture but not, for example, for a decimal comma.
- Whether a filter matches the stored document is not modelled. Every read-back in the model says that the filter carries the literal the code chose, in its form and text. It does not say that this literal equals the stored `_id`'s BSON value. That equality can fail in two ways. A Guid id stored under JavaLegacy or PythonLegacy (the constructor registers the serializer at lines 18-19) uses that representation's byte order, but the filter writes the standard `UUID("…")` form. An `ObjectId`, `DateTime`, `bool`, `char` or Nullable id is not numeric, so the filter quotes it as a string, while the stored value is an ObjectId, a date, a boolean or a number. The BSON types are the driver's, so they are outside the model.

=== FILE: client.dfy ===
/** AoxeMongoClient's operations: each one guards its arguments, resolves
    the type's collection name (and, for single-entity operations, its
    identifier filter) through the caches, and then issues one call to the
    driver. The driver call is modelled as the StoreCall it would receive;
    what the driver does with it is outside the model. */
module Client {
  import opened Wrappers
  import opened Errors
  import opened ClrTypes
  import opened FilterSyntax
  import opened Metadata
  import opened MetadataCache
  import opened IdFilter

  /** An entity instance: for each property name, the text its value
      renders to. A property missing from the map holds null, which string
      interpolation renders as empty text. */
  datatype Entity = Entity(values: map<string, string>)

  /** A caller's lambda (a `where` predicate or an `update` initializer);
      only the driver interprets it. */
  datatype Expression = Expression(source: string)

  /** The client's state: the GUID representation fixed at construction
      and the two metadata caches. */
  datatype ClientState = ClientState(guidRepresentation: GuidRepresentation, cache: Cache)

  /** One call on the collection of the given name. */
  datatype StoreCall =
    | Query(collection: string)
    | InsertOne(collection: string, entity: Entity)
    | InsertMany(collection: string, entities: seq<Entity>)
    | DeleteOne(collection: string, filter: string)
    | DeleteMany(collection: string, where: Expression)
    | UpdateOne(collection: string, filter: string, replacement: Entity)
    | UpdateMany(collection: string, where: Expression, update: Expression)

  /** What an operation did: the call it issued or the exception it threw,
      and the client state afterwards. */
  datatype Outcome = Outcome(result: Result<StoreCall, Error>, state: ClientState)

  /** A client as its constructor leaves it. */
  function NewClient(rep: GuidRepresentation): (s: ClientState)
    ensures s.guidRepresentation == rep
    ensures Coherent(s.cache)
    ensures s.cache.tableNames == map[] && s.cache.idProperties == map[]
  {
    ClientState(rep, EmptyCache)
  }

  /** The text `{value}` interpolates to for property `p` of `e`. */
  function ValueText(e: Entity, p: Property): string
  {
    if p.name in e.values then e.values[p.name] else ""
  }

  /** The literal the client's filter for entity `e` of type `t` carries:
      its identifier property's value in the form filter synthesis picks
      for the property's type. Defined when the identifier resolves. */
  function IdLiteralOf(s: ClientState, t: TypeDescriptor, e: Entity): Result<IdLiteral, Error>
  {
    match ResolveIdProperty(t)
    case Success(p) => IdLiteralFor(p.propertyType, ValueText(e, p), s.guidRepresentation)
    case Failure(err) => Failure(err)
  }

  /** The filter the client pastes together for entity `e` reads back as
      the literal the code chose: the identifier's text needs no escaping
      and, for a numeric type (enums included), is a number token. Numbers
      render as number tokens; ids holding `"` or `\` do not qualify, nor
      do enum member names other than `NaN` and `Infinity`, which qualify
      but read back as a number. */
  predicate ReadableId(t: TypeDescriptor, e: Entity)
  {
    match ResolveIdProperty(t)
    case Success(p) =>
      && NothingToEscape(ValueText(e, p))
      && (IsNumericType(p.propertyType) ==> IsNumberToken(ValueText(e, p)))
    case Failure(_) => true
  }

  /** GetJsonFilterDefinition: resolve the identifier property through the
      cache, read the entity's value of it and paste the filter together.
      When the identifier's text is readable, the filter reads back as the
      literal the code chose for it, its form and its text. */
  function JsonFilterDefinition(s: ClientState, t: TypeDescriptor, e: Entity): (r: (Result<string, Error>, ClientState))
    ensures Coherent(s.cache) ==> Coherent(r.1.cache)
    ensures r.1.guidRepresentation == s.guidRepresentation
    ensures r.1.cache.tableNames == s.cache.tableNames
    ensures Coherent(s.cache) ==> (r.0.Success? <==> IdLiteralOf(s, t, e).Success?)
    ensures Coherent(s.cache) && r.0.Failure? ==> r.0.error == IdLiteralOf(s, t, e).error
    ensures Coherent(s.cache) && r.0.Success? ==>
      ResolveIdProperty(t).Success? &&
      var p := ResolveIdProperty(t).value;
      r.0 == FilterJson(p.propertyType, ValueText(e, p), s.guidRepresentation)
    ensures Coherent(s.cache) && r.0.Success? && ReadableId(t, e) ==>
      ParseFilter(r.0.value) == Some(IdLiteralOf(s, t, e).value)
  {
    var (found, cache') := GetIdProperty(s.cache, t);
    var s' := s.(cache := cache');
    match found
    case Success(p) => (FilterJson(p.propertyType, ValueText(e, p), s.guidRepresentation), s')
    case Failure(err) => (Failure(err), s')
  }

  /** GetQueryable: a query over the type's collection. */
  function GetQueryable(s: ClientState, t: TypeDescriptor): (r: Outcome)
    ensures Coherent(s.cache) ==> r.result == Success(Query(TableName(t))) && Coherent(r.state.cache)
    ensures r.state.guidRepresentation == s.guidRepresentation
    ensures r.state.cache.idProperties == s.cache.idProperties
    ensures t in r.state.cache.tableNames
  {
    var (name, cache') := GetTableName(s.cache, t);
    Outcome(Success(Query(name)), s.(cache := cache'))
  }

  /** Add: inserts the entity into the type's collection, unchecked. */
  function Add(s: ClientState, t: TypeDescriptor, e: Entity): (r: Outcome)
    ensures Coherent(s.cache) ==> r.result == Success(InsertOne(TableName(t), e)) && Coherent(r.state.cache)
    ensures r.state.guidRepresentation == s.guidRepresentation
    ensures r.state.cache.idProperties == s.cache.idProperties
    ensures t in r.state.cache.tableNames
  {
    var (name, cache') := GetTableName(s.cache, t);
    Outcome(Success(InsertOne(name, e)), s.(cache := cache'))
  }

  /** AddRange: inserts the entities into the type's collection, unchecked. */
  function AddRange(s: ClientState, t: TypeDescriptor, es: seq<Entity>): (r: Outcome)
    ensures Coherent(s.cache) ==> r.result == Success(InsertMany(TableName(t), es)) && Coherent(r.state.cache)
    ensures r.state.guidRepresentation == s.guidRepresentation
    ensures r.state.cache.idProperties == s.cache.idProperties
    ensures t in r.state.cache.tableNames
  {
    var (name, cache') := GetTableName(s.cache, t);
    Outcome(Success(InsertMany(name, es)), s.(cache := cache'))
  }

  /** Delete(entity): a null entity is rejected before anything else;
      otherwise the collection name is resolved first, then the filter,
      and one document is deleted by that filter. */
  function Delete(s: ClientState, t: TypeDescriptor, entity: Option<Entity>): (r: Outcome)
    ensures entity.None? ==> r.result == Failure(ArgumentNull("entity")) && r.state == s
    ensures entity.Some? ==> t in r.state.cache.tableNames
    ensures r.state.guidRepresentation == s.guidRepresentation
    ensures Coherent(s.cache) ==> Coherent(r.state.cache)
    ensures Coherent(s.cache) && entity.Some? ==>
      (r.result.Success? <==> IdLiteralOf(s, t, entity.value).Success?)
    ensures Coherent(s.cache) && entity.Some? && r.result.Failure? ==>
      r.result.error == IdLiteralOf(s, t, entity.value).error
    ensures Coherent(s.cache) && r.result.Success? ==>
      r.result.value.DeleteOne? && r.result.value.collection == TableName(t)
    ensures Coherent(s.cache) && entity.Some? && r.result.Success? ==>
      ResolveIdProperty(t).Success? &&
      var p := ResolveIdProperty(t).value;
      FilterJson(p.propertyType, ValueText(entity.value, p), s.guidRepresentation) == Success(r.result.value.filter)
    ensures Coherent(s.cache) && entity.Some? && r.result.Success? && ReadableId(t, entity.value) ==>
      ParseFilter(r.result.value.filter) == Some(IdLiteralOf(s, t, entity.value).value)
  {
    match entity
    case None => Outcome(Failure(ArgumentNull("entity")), s)
    case Some(e) =>
      var (name, cache') := GetTableName(s.cache, t);
      var (filter, s') := JsonFilterDefinition(s.(cache := cache'), t, e);
      match filter
      case Success(f) => Outcome(Success(DeleteOne(name, f)), s')
      case Failure(err) => Outcome(Failure(err), s')
  }

  /** Delete(where): a null predicate is rejected; otherwise every
      matching document of the type's collection is deleted. */
  function DeleteWhere(s: ClientState, t: TypeDescriptor, where: Option<Expression>): (r: Outcome)
    ensures where.None? ==> r.result == Failure(ArgumentNull("where")) && r.state == s
    ensures where.Some? ==> t in r.state.cache.tableNames
    ensures Coherent(s.cache) && where.Some? ==>
      r.result == Success(DeleteMany(TableName(t), where.value)) && Coherent(r.state.cache)
    ensures r.state.guidRepresentation == s.guidRepresentation
    ensures r.state.cache.idProperties == s.cache.idProperties
  {
    match where
    case None => Outcome(Failure(ArgumentNull("where")), s)
    case Some(w) =>
      var (name, cache') := GetTableName(s.cache, t);
      Outcome(Success(DeleteMany(name, w)), s.(cache := cache'))
  }

  /** Update(entity): a null entity is rejected before anything else;
      otherwise the document selected by the entity's identifier filter
      has every field set from the entity. */
  function Update(s: ClientState, t: TypeDescriptor, entity: Option<Entity>): (r: Outcome)
    ensures entity.None? ==> r.result == Failure(ArgumentNull("entity")) && r.state == s
    ensures entity.Some? ==> t in r.state.cache.tableNames
    ensures r.state.guidRepresentation == s.guidRepresentation
    ensures Coherent(s.cache) ==> Coherent(r.state.cache)
    ensures Coherent(s.cache) && entity.Some? ==>
      (r.result.Success? <==> IdLiteralOf(s, t, entity.value).Success?)
    ensures Coherent(s.cache) && entity.Some? && r.result.Failure? ==>
      r.result.error == IdLiteralOf(s, t, entity.value).error
    ensures Coherent(s.cache) && entity.Some? && r.result.Success? ==>
      r.result.value.UpdateOne? && r.result.value.collection == TableName(t)
      && r.result.value.replacement == entity.value
    ensures Coherent(s.cache) && entity.Some? && r.result.Success? ==>
      ResolveIdProperty(t).Success? &&
      var p := ResolveIdProperty(t).value;
      FilterJson(p.propertyType, ValueText(entity.value, p), s.guidRepresentation) == Success(r.result.value.filter)
    ensures Coherent(s.cache) && entity.Some? && r.result.Success? && ReadableId(t, entity.value) ==>
      ParseFilter(r.result.value.filter) == Some(IdLiteralOf(s, t, entity.value).value)
  {
    match entity
    case None => Outcome(Failure(ArgumentNull("entity")), s)
    case Some(e) =>
      var (name, cache') := GetTableName(s.cache, t);
      var (filter, s') := JsonFilterDefinition(s.(cache := cache'), t, e);
      match filter
      case Success(f) => Outcome(Success(UpdateOne(name, f, e)), s')
      case Failure(err) => Outcome(Failure(err), s')
  }

  /** Update(update, where): a null `update` is reported before a null
      `where`; otherwise every document matching `where` is updated. */
  function UpdateWhere(s: ClientState, t: TypeDescriptor, update: Option<Expression>, where: Option<Expression>): (r: Outcome)
    ensures update.None? ==> r.result == Failure(ArgumentNull("update")) && r.state == s
    ensures update.Some? && where.None? ==> r.result == Failure(ArgumentNull("where")) && r.state == s
    ensures update.Some? && where.Some? ==> t in r.state.cache.tableNames
    ensures Coherent(s.cache) && update.Some? && where.Some? ==>
      r.result == Success(UpdateMany(TableName(t), where.value, update.value)) && Coherent(r.state.cache)
    ensures r.state.guidRepresentation == s.guidRepresentation
    ensures r.state.cache.idProperties == s.cache.idProperties
  {
    if update.None? then Outcome(Failure(ArgumentNull("update")), s)
    else if where.None? then Outcome(Failure(ArgumentNull("where")), s)
    else
      var (name, cache') := GetTableName(s.cache, t);
      Outcome(Success(UpdateMany(name, where.value, update.value)), s.(cache := cache'))
  }

  /** Delete and Update of the same entity from the same state target the
      same document: same collection, same filter, or the same error. */
  lemma DeleteAndUpdateSelectAlike(s: ClientState, t: TypeDescriptor, e: Entity)
    ensures Delete(s, t, Some(e)).state == Update(s, t, Some(e)).state
    ensures Delete(s, t, Some(e)).result.Success? <==> Update(s, t, Some(e)).result.Success?
    ensures Delete(s, t, Some(e)).result.Success? ==>
      Delete(s, t, Some(e)).result.value.collection == Update(s, t, Some(e)).result.value.collection
      && Delete(s, t, Some(e)).result.value.filter == Update(s, t, Some(e)).result.value.filter
    ensures Delete(s, t, Some(e)).result.Failure? ==>
      Delete(s, t, Some(e)).result.error == Update(s, t, Some(e)).result.error
  {
  }

  /** Delete sends the filter exactly as the client pastes it together:
      for a string `Id` holding `a"b` the filter is `{"_id":"a"b"}`, which
      carries no identifier literal at all. */
  lemma DeleteSendsUnescapedFilter()
    ensures
      var t := TypeDescriptor("Ns.T", "T", None, [Property("Id", false, ClrType(String))]);
      Delete(NewClient(Standard), t, Some(Entity(map["Id" := "a\"b"]))).result
        == Success(DeleteOne("T", "{\"_id\":\"a\"b\"}"))
  {
    var t := TypeDescriptor("Ns.T", "T", None, [Property("Id", false, ClrType(String))]);
    var p := Property("Id", false, ClrType(String));
    assert ResolveIdProperty(t) == Success(p);
    QuoteInStringIdBreaksFilter();
  }
}

=== FILE: clr_types.dfy ===
/** The parts of the .NET type system that the client consults: the TypeCode a
    property's type reports, whether that type is System.Guid, and the GUID
    byte-representation setting of the driver's GuidSerializer. */
module ClrTypes {

  /** System.TypeCode, as returned by Type.GetTypeCode. */
  datatype TypeCode =
    | Empty | Object | DBNull | Boolean | Char
    | SByte | Byte | Int16 | UInt16 | Int32 | UInt32 | Int64 | UInt64
    | Single | Double | Decimal | DateTime | String

  /** The numeric value .NET assigns to each TypeCode member (17 is unused). */
  function Ordinal(c: TypeCode): nat
  {
    match c
    case Empty => 0
    case Object => 1
    case DBNull => 2
    case Boolean => 3
    case Char => 4
    case SByte => 5
    case Byte => 6
    case Int16 => 7
    case UInt16 => 8
    case Int32 => 9
    case UInt32 => 10
    case Int64 => 11
    case UInt64 => 12
    case Single => 13
    case Double => 14
    case Decimal => 15
    case DateTime => 16
    case String => 18
  }

  /** The TypeCodes an enum may be declared over: SByte through UInt64. */
  type IntegralCode = c: TypeCode | 5 <= Ordinal(c) <= 12 witness SByte

  /** The type of an identifier property, as far as filter synthesis can tell.
      GuidType is System.Guid (whose TypeCode is Object); EnumType is an enum
      with the given underlying TypeCode, which C# restricts to the eight
      integral codes; ClrType is every other type,
      described by its TypeCode alone (a class, a struct such as ObjectId or a
      Nullable<T> reports Object). */
  datatype PropertyType = GuidType | EnumType(underlying: IntegralCode) | ClrType(code: TypeCode)

  /** Type.GetTypeCode: an enum reports its underlying type's code, Guid and
      every other non-primitive struct or class reports Object. */
  function TypeCodeOf(t: PropertyType): TypeCode
  {
    match t
    case GuidType => Object
    case EnumType(u) => u
    case ClrType(code) => code
  }

  /** The numeric-kind test of filter synthesis: the eleven integral and
      floating-point TypeCodes. Equivalently, the TypeCodes numbered 5 to 15,
      which excludes Boolean, Char, DateTime, String and Object. */
  predicate IsNumericType(t: PropertyType)
    ensures IsNumericType(t) <==> 5 <= Ordinal(TypeCodeOf(t)) <= 15
  {
    match TypeCodeOf(t)
    case Byte => true
    case SByte => true
    case UInt16 => true
    case UInt32 => true
    case UInt64 => true
    case Int16 => true
    case Int32 => true
    case Int64 => true
    case Decimal => true
    case Double => true
    case Single => true
    case _ => false
  }

  /** MongoDB.Bson.GuidRepresentation. A C# enum variable may hold any
      integer; Unrecognized stands for every value outside the five named
      members. */
  datatype GuidRepresentation =
    | Unspecified | Standard | CSharpLegacy | JavaLegacy | PythonLegacy
    | Unrecognized
}

=== FILE: errors.dfy ===
/** The exceptions the client raises, as values. */
module Errors {

  datatype Error =
    /** ArgumentNullException for the named parameter. */
    | ArgumentNull(paramName: string)
    /** NullReferenceException("The primary key can not be found."): no
        identifier property could be resolved for the entity type. */
    | PrimaryKeyNotFound
    /** ArgumentOutOfRangeException: the GUID representation is none of the
        five named members. */
    | GuidRepresentationOutOfRange
}

=== FILE: filter_syntax.dfy ===
/** The textual shape of an identifier filter, `{"_id":<literal>}`, and a
    reader for it. The reader understands the four literal forms the client
    can produce: a bare number token, a JSON string, and the driver's
    `UUID("…")` and `CSUUID("…")` shell helpers; inside quotes it accepts the
    escapes `\"` and `\\`. It gives a filter string its syntactic meaning:
    the literal it carries, in its form and text. Whether that literal
    equals a stored `_id` (its BSON type, a GUID's byte order) is decided by
    the driver and the server, not here. */
module FilterSyntax {
  import opened Wrappers

  /** The identifier literal a filter carries. */
  datatype IdLiteral =
    | Bare(text: string)
    | Str(text: string)
    | Uuid(text: string)
    | CsUuid(text: string)

  const FilterPrefix: string := "{\"_id\":"
  const UuidOpen: string := "UUID(\""
  const CsUuidOpen: string := "CSUUID(\""

  predicate IsDigit(c: char)
  {
    '0' <= c <= '9'
  }

  /** The number of leading decimal digits of `s`. */
  function LeadingDigits(s: string): (n: nat)
    ensures n <= |s|
    ensures forall i :: 0 <= i < n ==> IsDigit(s[i])
    ensures n < |s| ==> !IsDigit(s[n])
    decreases |s|
  {
    if |s| > 0 && IsDigit(s[0]) then 1 + LeadingDigits(s[1..]) else 0
  }

  /** An optional exponent, `e` or `E`, an optional sign and digits, and
      nothing after it. */
  predicate IsExponentTail(s: string)
  {
    |s| == 0 ||
    ((s[0] == 'e' || s[0] == 'E') &&
      var u := if |s| > 1 && (s[1] == '+' || s[1] == '-') then s[2..] else s[1..];
      |u| > 0 && LeadingDigits(u) == |u|)
  }

  /** An optional fraction, `.` and digits, followed by an exponent tail. */
  predicate IsFractionTail(s: string)
  {
    if |s| > 0 && s[0] == '.' then
      var d := LeadingDigits(s[1..]);
      d > 0 && IsExponentTail(s[1 + d..])
    else IsExponentTail(s)
  }

  /** A number token: an optional minus, digits, an optional fraction and
      an optional exponent, or one of the non-finite spellings `NaN`,
      `Infinity` and `-Infinity`. These are the only bare literals the
      reader accepts. */
  predicate IsNumberToken(t: string)
  {
    || t == "NaN" || t == "Infinity" || t == "-Infinity"
    || (var b := if |t| > 0 && t[0] == '-' then t[1..] else t;
        var d := LeadingDigits(b);
        d > 0 && IsFractionTail(b[d..]))
  }

  /** A number token begins with a minus, a digit, `N` or `I`, so it never
      begins like a quoted or tagged literal. */
  lemma NumberTokenStart(t: string)
    requires IsNumberToken(t)
    ensures |t| > 0 && t[0] != '"' && t[0] != 'U' && t[0] != 'C'
  {
    if t != "NaN" && t != "Infinity" && t != "-Infinity" {
      var b := if |t| > 0 && t[0] == '-' then t[1..] else t;
      assert IsDigit(b[0]);
    }
  }

  /** A literal the reader can recover from its rendering. */
  predicate WellFormed(lit: IdLiteral)
  {
    lit.Bare? ==> IsNumberToken(lit.text)
  }

  /** JSON string escaping of the two characters that would otherwise end
      or alter a quoted literal. */
  function Escape(v: string): (r: string)
    ensures |r| >= |v|
    ensures '"' !in v && '\\' !in v ==> r == v
    decreases |v|
  {
    if |v| == 0 then ""
    else (if v[0] == '"' || v[0] == '\\' then ['\\', v[0]] else [v[0]]) + Escape(v[1..])
  }

  /** Reads the contents of a quoted literal: `b` is the text after the
      opening quote, and the closing quote must be its last character. */
  function ParseString(b: string): Option<string>
    decreases |b|
  {
    if |b| == 0 then None
    else if b[0] == '"' then (if |b| == 1 then Some("") else None)
    else if b[0] == '\\' then
      if |b| >= 2 && (b[1] == '"' || b[1] == '\\') then
        match ParseString(b[2..])
        case Some(t) => Some([b[1]] + t)
        case None => None
      else None
    else
      match ParseString(b[1..])
      case Some(t) => Some([b[0]] + t)
      case None => None
  }

  /** Reads `t")` — the rest of a tagged literal after its opening `TAG("`. */
  function ParseTagged(b: string): Option<string>
  {
    if |b| > 0 && b[|b| - 1] == ')' then ParseString(b[..|b| - 1]) else None
  }

  function ParseLiteral(b: string): Option<IdLiteral>
  {
    if |b| == 0 then None
    else if b[0] == '"' then
      match ParseString(b[1..])
      case Some(t) => Some(Str(t))
      case None => None
    else if UuidOpen <= b then
      match ParseTagged(b[|UuidOpen|..])
      case Some(t) => Some(Uuid(t))
      case None => None
    else if CsUuidOpen <= b then
      match ParseTagged(b[|CsUuidOpen|..])
      case Some(t) => Some(CsUuid(t))
      case None => None
    else if IsNumberToken(b) then Some(Bare(b))
    else None
  }

  /** The identifier literal a filter string carries, if it is one. */
  function ParseFilter(s: string): Option<IdLiteral>
  {
    if |s| > |FilterPrefix| && FilterPrefix <= s && s[|s| - 1] == '}' then
      ParseLiteral(s[|FilterPrefix|..|s| - 1])
    else None
  }

  function RenderLiteral(lit: IdLiteral): string
  {
    match lit
    case Bare(t) => t
    case Str(t) => "\"" + Escape(t) + "\""
    case Uuid(t) => UuidOpen + Escape(t) + "\")"
    case CsUuid(t) => CsUuidOpen + Escape(t) + "\")"
  }

  /** The filter text selecting documents whose `_id` is `lit`. */
  function Render(lit: IdLiteral): (s: string)
    ensures FilterPrefix <= s && |s| > |FilterPrefix| && s[|s| - 1] == '}'
  {
    FilterPrefix + RenderLiteral(lit) + "}"
  }

  /** One unescaped character in front of a readable quoted literal. */
  lemma ParseStringPlain(c: char, rest: string, t: string)
    requires c != '"' && c != '\\'
    requires ParseString(rest) == Some(t)
    ensures ParseString([c] + rest) == Some([c] + t)
  {
    assert ([c] + rest)[1..] == rest;
  }

  /** One escape sequence in front of a readable quoted literal. */
  lemma ParseStringEscaped(c: char, rest: string, t: string)
    requires c == '"' || c == '\\'
    requires ParseString(rest) == Some(t)
    ensures ParseString(['\\', c] + rest) == Some([c] + t)
  {
    assert (['\\', c] + rest)[2..] == rest;
  }

  /** Escaping is undone by reading the quoted literal back. */
  lemma {:induction false} ParseEscaped(v: string)
    ensures ParseString(Escape(v) + "\"") == Some(v)
    decreases |v|
  {
    if |v| == 0 {
      assert Escape(v) + "\"" == "\"";
    } else {
      ParseEscaped(v[1..]);
      var rest := Escape(v[1..]) + "\"";
      assert v == [v[0]] + v[1..];
      if v[0] == '"' || v[0] == '\\' {
        assert Escape(v) + "\"" == ['\\', v[0]] + rest;
        ParseStringEscaped(v[0], rest, v[1..]);
      } else {
        assert Escape(v) + "\"" == [v[0]] + rest;
        ParseStringPlain(v[0], rest, v[1..]);
      }
    }
  }

  lemma ParseTaggedEscaped(v: string)
    ensures ParseTagged(Escape(v) + "\")") == Some(v)
  {
    var b := Escape(v) + "\")";
    assert b[..|b| - 1] == Escape(v) + "\"";
    ParseEscaped(v);
  }

  lemma ParseStrLiteral(t: string)
    ensures ParseLiteral(RenderLiteral(Str(t))) == Some(Str(t))
  {
    var body := RenderLiteral(Str(t));
    assert body[0] == '"';
    assert body[1..] == Escape(t) + "\"";
    ParseEscaped(t);
  }

  lemma ParseUuidLiteral(t: string)
    ensures ParseLiteral(RenderLiteral(Uuid(t))) == Some(Uuid(t))
  {
    var body := RenderLiteral(Uuid(t));
    assert body[0] == 'U';
    assert UuidOpen <= body;
    assert body[|UuidOpen|..] == Escape(t) + "\")";
    ParseTaggedEscaped(t);
  }

  lemma ParseCsUuidLiteral(t: string)
    ensures ParseLiteral(RenderLiteral(CsUuid(t))) == Some(CsUuid(t))
  {
    var body := RenderLiteral(CsUuid(t));
    assert body[0] == 'C';
    assert !(UuidOpen <= body) by { assert UuidOpen[0] != body[0]; }
    assert CsUuidOpen <= body;
    assert body[|CsUuidOpen|..] == Escape(t) + "\")";
    ParseTaggedEscaped(t);
  }

  /** Round trip: a well-formed literal is read back from its rendering. */
  lemma RenderRoundTrip(lit: IdLiteral)
    requires WellFormed(lit)
    ensures ParseFilter(Render(lit)) == Some(lit)
  {
    var s := Render(lit);
    assert s[|FilterPrefix|..|s| - 1] == RenderLiteral(lit);
    match lit
    case Bare(t) =>
      NumberTokenStart(t);
      assert !(UuidOpen <= t) && !(CsUuidOpen <= t);
    case Str(t) => ParseStrLiteral(t);
    case Uuid(t) => ParseUuidLiteral(t);
    case CsUuid(t) => ParseCsUuidLiteral(t);
  }

  /** Distinct well-formed literals render to distinct filters, so a
      rendered filter carries exactly one literal. */
  lemma RenderInjective(a: IdLiteral, b: IdLiteral)
    requires WellFormed(a) && WellFormed(b)
    ensures Render(a) == Render(b) <==> a == b
  {
    if Render(a) == Render(b) {
      RenderRoundTrip(a);
      RenderRoundTrip(b);
    }
  }

  /** A bare literal followed by further fields is refused. */
  lemma ReaderRefusesTrailingFields()
    ensures ParseFilter("{\"_id\":1,\"x\":2}") == None
  {
    var a := "{\"_id\":1,\"x\":2}";
    var body := "1,\"x\":2";
    assert a[|FilterPrefix|..|a| - 1] == body;
    assert !(UuidOpen <= body) && !(CsUuidOpen <= body);
    assert body[1..] == ",\"x\":2";
    assert LeadingDigits(body) == 1;
    assert !IsNumberToken(body);
  }

  /** A bare name is refused: it is not a JSON value. */
  lemma ReaderRefusesBareName()
    ensures ParseFilter("{\"_id\":Banana}") == None
  {
    var b := "{\"_id\":Banana}";
    assert b[|FilterPrefix|..|b| - 1] == "Banana";
    assert !(UuidOpen <= "Banana") && !(CsUuidOpen <= "Banana");
    assert LeadingDigits("Banana") == 0;
    assert !IsNumberToken("Banana");
  }

  /** A signed number with fraction and exponent is read as itself. */
  lemma ReaderReadsExponentNumber()
    ensures IsNumberToken("-1.5E+3")
  {
    var n := "-1.5E+3";
    assert n[1..] == "1.5E+3";
    assert "E+3"[2..] == "3";
    assert LeadingDigits("3") == 1;
    assert IsExponentTail("E+3");
    assert ".5E+3"[1..] == "5E+3";
    assert "5E+3"[1..] == "E+3";
    assert LeadingDigits("5E+3") == 1;
    assert ".5E+3"[2..] == "E+3";
    assert IsFractionTail(".5E+3");
    assert "1.5E+3"[1..] == ".5E+3";
    assert LeadingDigits("1.5E+3") == 1;
  }
}

=== FILE: id_filter.dfy ===
/** Identifier-filter synthesis (GetJsonFilterDefinition): the JSON filter
    text `{"_id":…}` built from the identifier property's type, the text its
    value renders to, and the configured GUID representation. */
module IdFilter {
  import opened Wrappers
  import opened Errors
  import opened ClrTypes
  import opened FilterSyntax

  /** The literal form chosen for an identifier: the numeric test comes
      first, then the Guid test (whose tag is picked by the representation),
      and every other type is written as a string. */
  function IdLiteralFor(kind: PropertyType, value: string, rep: GuidRepresentation): (r: Result<IdLiteral, Error>)
    ensures r.Failure? <==> kind.GuidType? && rep.Unrecognized?
    ensures r.Failure? ==> r.error == GuidRepresentationOutOfRange
    ensures r.Success? ==> r.value.text == value
    ensures r.Success? ==> (r.value.Bare? <==> IsNumericType(kind))
    ensures r.Success? ==> (r.value.CsUuid? <==> kind.GuidType? && rep.CSharpLegacy?)
    ensures r.Success? ==> (r.value.Str? <==> !IsNumericType(kind) && !kind.GuidType?)
  {
    if IsNumericType(kind) then Success(Bare(value))
    else if kind.GuidType? then
      match rep
      case Unspecified => Success(Uuid(value))
      case Standard => Success(Uuid(value))
      case CSharpLegacy => Success(CsUuid(value))
      case JavaLegacy => Success(Uuid(value))
      case PythonLegacy => Success(Uuid(value))
      case Unrecognized => Failure(GuidRepresentationOutOfRange)
    else Success(Str(value))
  }

  /** The filter text exactly as the client builds it: the value text is
      pasted between the fixed pieces with no escaping. */
  function FilterJson(kind: PropertyType, value: string, rep: GuidRepresentation): (r: Result<string, Error>)
    ensures r.Failure? <==> kind.GuidType? && rep.Unrecognized?
    ensures r.Failure? ==> r.error == GuidRepresentationOutOfRange
    ensures r.Success? ==> FilterPrefix <= r.value && r.value[|r.value| - 1] == '}'
    ensures IsNumericType(kind) ==> r == Success(FilterPrefix + value + "}")
    ensures !IsNumericType(kind) && !kind.GuidType? ==> r == Success(FilterPrefix + "\"" + value + "\"}")
    ensures '"' !in value && '\\' !in value ==> r == EscapedFilterJson(kind, value, rep)
  {
    AgreesWhenNothingToEscape(kind, value, rep);
    if IsNumericType(kind) then Success(FilterPrefix + value + "}")
    else if kind == GuidType then
      match rep
      case Unspecified => Success(FilterPrefix + UuidOpen + value + "\")}")
      case Standard => Success(FilterPrefix + UuidOpen + value + "\")}")
      case CSharpLegacy => Success(FilterPrefix + CsUuidOpen + value + "\")}")
      case JavaLegacy => Success(FilterPrefix + UuidOpen + value + "\")}")
      case PythonLegacy => Success(FilterPrefix + UuidOpen + value + "\")}")
      case Unrecognized => Failure(GuidRepresentationOutOfRange)
    else Success(FilterPrefix + "\"" + value + "\"}")
  }

  /** Filter synthesis with the value escaped inside quotes: a filter
      whose numeric text is a number token reads back as exactly the
      literal the code chose, its form and its text. Enum identifiers are
      still written bare. */
  function EscapedFilterJson(kind: PropertyType, value: string, rep: GuidRepresentation): (r: Result<string, Error>)
    ensures r.Failure? <==> kind.GuidType? && rep.Unrecognized?
    ensures r.Failure? ==> r.error == GuidRepresentationOutOfRange
    ensures r.Success? && (IsNumericType(kind) ==> IsNumberToken(value)) ==>
      ParseFilter(r.value) == Some(IdLiteralFor(kind, value, rep).value)
  {
    match IdLiteralFor(kind, value, rep)
    case Success(lit) =>
      assert WellFormed(lit) ==> ParseFilter(Render(lit)) == Some(lit) by {
        if WellFormed(lit) { RenderRoundTrip(lit); }
      }
      Success(Render(lit))
    case Failure(e) => Failure(e)
  }

  /** Where escaping changes nothing, the escaped rendering is the text the
      client pastes together. */
  lemma AgreesWhenNothingToEscape(kind: PropertyType, value: string, rep: GuidRepresentation)
    ensures '"' !in value && '\\' !in value ==>
      EscapedFilterJson(kind, value, rep) ==
        (if IsNumericType(kind) then Success(FilterPrefix + value + "}")
         else if kind.GuidType? then
           (if rep.Unrecognized? then Failure(GuidRepresentationOutOfRange)
            else if rep.CSharpLegacy? then Success(FilterPrefix + CsUuidOpen + value + "\")}")
            else Success(FilterPrefix + UuidOpen + value + "\")}"))
         else Success(FilterPrefix + "\"" + value + "\"}"))
  {
    if '"' !in value && '\\' !in value {
      assert Escape(value) == value;
      assert FilterPrefix + (UuidOpen + value + "\")") + "}" == FilterPrefix + UuidOpen + value + "\")}";
      assert FilterPrefix + (CsUuidOpen + value + "\")") + "}" == FilterPrefix + CsUuidOpen + value + "\")}";
      assert FilterPrefix + ("\"" + value + "\"") + "}" == FilterPrefix + "\"" + value + "\"}";
    }
  }

  /** For a Guid identifier the tag depends only on the representation:
      CSharpLegacy selects `CSUUID`, and the other four named
      representations all select `UUID` (Java and Python legacy included). */
  lemma GuidTagByRepresentation(value: string, rep: GuidRepresentation)
    ensures rep.CSharpLegacy? ==>
      FilterJson(GuidType, value, rep) == Success(FilterPrefix + CsUuidOpen + value + "\")}")
    ensures !rep.CSharpLegacy? && !rep.Unrecognized? ==>
      FilterJson(GuidType, value, rep) == Success(FilterPrefix + UuidOpen + value + "\")}")
    ensures rep.Unrecognized? ==> FilterJson(GuidType, value, rep) == Failure(GuidRepresentationOutOfRange)
  {
  }

  /** An enum identifier is written bare, like a number, because
      Type.GetTypeCode reports its underlying integral code. */
  lemma EnumIdIsUnquoted(underlying: IntegralCode, value: string, rep: GuidRepresentation)
    ensures FilterJson(EnumType(underlying), value, rep) == Success(FilterPrefix + value + "}")
  {
  }

  /** As written, a string identifier containing a double quote yields a
      filter that is not a readable identifier filter at all. */
  lemma QuoteInStringIdBreaksFilter()
    ensures FilterJson(ClrType(String), "a\"b", Standard) == Success("{\"_id\":\"a\"b\"}")
    ensures ParseFilter("{\"_id\":\"a\"b\"}") == None
  {
    var s := "{\"_id\":\"a\"b\"}";
    assert FilterPrefix + "\"" + "a\"b" + "\"}" == s;
    var body := s[|FilterPrefix|..|s| - 1];
    assert body == "\"a\"b\"";
    assert body[1..] == "a\"b\"";
    assert ParseString("\"b\"") == None;
    assert ParseString("a\"b\"") == None;
  }

  /** As written, a string identifier `a\"b` yields a filter that selects
      the different identifier `a"b`. */
  lemma BackslashInStringIdSelectsOtherId()
    ensures FilterJson(ClrType(String), "a\\\"b", Standard) == Success("{\"_id\":\"a\\\"b\"}")
    ensures ParseFilter("{\"_id\":\"a\\\"b\"}") == Some(Str("a\"b"))
    ensures Str("a\"b") != Str("a\\\"b")
  {
    var s := "{\"_id\":\"a\\\"b\"}";
    assert FilterPrefix + "\"" + "a\\\"b" + "\"}" == s;
    var body := s[|FilterPrefix|..|s| - 1];
    assert body == "\"a\\\"b\"";
    assert body[1..] == "a\\\"b\"";
    assert ParseString("\"") == Some("");
    assert "b\""[1..] == "\"";
    assert ['b'] + "" == "b";
    assert ParseString("b\"") == Some("b");
    assert "\\\"b\""[2..] == "b\"";
    assert ['"'] + "b" == "\"b";
    assert ParseString("\\\"b\"") == Some("\"b");
    assert "a\\\"b\""[1..] == "\\\"b\"";
    assert ['a'] + "\"b" == "a\"b";
    assert ParseString("a\\\"b\"") == Some("a\"b");
  }

  /** With escaping, every string identifier round-trips through its
      filter, whatever characters it contains. */
  lemma EscapedStringIdRoundTrip(kind: PropertyType, value: string, rep: GuidRepresentation)
    requires !IsNumericType(kind) && !kind.GuidType?
    ensures EscapedFilterJson(kind, value, rep).Success?
    ensures ParseFilter(EscapedFilterJson(kind, value, rep).value) == Some(Str(value))
  {
  }

  /** Text the client can paste between quotes without changing what the
      quoted literal means. */
  predicate NothingToEscape(value: string)
  {
    '"' !in value && '\\' !in value
  }

  /** The literal form intended for an identifier: a number token for the
      numeric types, a tagged literal for a Guid, and a string for every
      other type, enums included (their text is the member name). */
  function IntendedLiteralFor(kind: PropertyType, value: string, rep: GuidRepresentation): (r: Result<IdLiteral, Error>)
    ensures r.Failure? <==> kind.GuidType? && rep.Unrecognized?
    ensures r.Failure? ==> r.error == GuidRepresentationOutOfRange
    ensures r.Success? ==> r.value.text == value
    ensures r.Success? ==> (r.value.Bare? <==> IsNumericType(kind) && !kind.EnumType?)
    ensures !kind.EnumType? ==> r == IdLiteralFor(kind, value, rep)
  {
    if kind.EnumType? then Success(Str(value)) else IdLiteralFor(kind, value, rep)
  }

  /** Corrected filter synthesis: escaped quoted values, and enum
      identifiers quoted. Every filter it produces reads back as the
      intended literal, provided a numeric value renders as a number
      token. */
  function IntendedFilterJson(kind: PropertyType, value: string, rep: GuidRepresentation): (r: Result<string, Error>)
    ensures r.Failure? <==> kind.GuidType? && rep.Unrecognized?
    ensures r.Failure? ==> r.error == GuidRepresentationOutOfRange
    ensures r.Success? && (IsNumericType(kind) && !kind.EnumType? ==> IsNumberToken(value)) ==>
      ParseFilter(r.value) == Some(IntendedLiteralFor(kind, value, rep).value)
    ensures !kind.EnumType? ==> r == EscapedFilterJson(kind, value, rep)
  {
    match IntendedLiteralFor(kind, value, rep)
    case Success(lit) =>
      assert WellFormed(lit) ==> ParseFilter(Render(lit)) == Some(lit) by {
        if WellFormed(lit) { RenderRoundTrip(lit); }
      }
      Success(Render(lit))
    case Failure(e) => Failure(e)
  }

  /** As written, an enum identifier whose text is its member name yields a
      bare name, which is not a readable identifier filter. */
  lemma EnumNameIdBreaksFilter()
    ensures FilterJson(EnumType(Int32), "Banana", Standard) == Success("{\"_id\":Banana}")
    ensures ParseFilter("{\"_id\":Banana}") == None
  {
    assert FilterPrefix + "Banana" + "}" == "{\"_id\":Banana}" by {
      assert FilterPrefix == "{\"_id\":";
    }
    ReaderRefusesBareName();
  }

  /** As written, an enum member whose name is a non-finite number
      spelling (C# allows a member named `Infinity` or `NaN`) yields a
      filter that reads back as a bare number, not as the enum member. */
  lemma InfinityEnumIdReadsAsNumber()
    ensures FilterJson(EnumType(Int32), "Infinity", Standard) == Success("{\"_id\":Infinity}")
    ensures ParseFilter("{\"_id\":Infinity}") == Some(Bare("Infinity"))
  {
    var s := "{\"_id\":Infinity}";
    assert FilterPrefix + "Infinity" + "}" == s;
    assert s[|FilterPrefix|..|s| - 1] == "Infinity";
  }

  /** Corrected, every enum identifier reads back from its filter as its
      own text, whatever that text is. */
  lemma IntendedEnumIdRoundTrip(underlying: IntegralCode, value: string, rep: GuidRepresentation)
    ensures IntendedFilterJson(EnumType(underlying), value, rep).Success?
    ensures ParseFilter(IntendedFilterJson(EnumType(underlying), value, rep).value) == Some(Str(value))
  {
  }
}

=== FILE: metadata.dfy ===
/** Per-type metadata the client discovers by reflection: the collection
    name (GetTableName) and the identifier property (GetIdProperty). Types
    and their attributes are given as explicit records. */
module Metadata {
  import opened Wrappers
  import opened Errors
  import opened ClrTypes

  /** A public property as Type.GetProperties reports it, with whether it
      carries [BsonId]. */
  datatype Property = Property(name: string, hasBsonId: bool, propertyType: PropertyType)

  /** A .NET type. `fullName` is its identity, `name` is Type.Name, `table`
      is the Name of its [Table] attribute if it has one, and `properties`
      lists its properties in declaration order. */
  datatype TypeDescriptor = TypeDescriptor(
    fullName: string,
    name: string,
    table: Option<string>,
    properties: seq<Property>)

  /** The position of the first property satisfying `p` (FirstOrDefault). */
  function FirstIndex(props: seq<Property>, p: Property -> bool): (r: Option<nat>)
    ensures r.Some? ==> r.value < |props| && p(props[r.value])
    ensures r.Some? ==> forall j :: 0 <= j < r.value ==> !p(props[j])
    ensures r.None? ==> forall j :: 0 <= j < |props| ==> !p(props[j])
    decreases |props|
  {
    if |props| == 0 then None
    else if p(props[0]) then Some(0)
    else
      match FirstIndex(props[1..], p)
      case Some(i) => Some(i + 1)
      case None => None
  }

  /** Priority of a property as the identifier: [BsonId] first, then the
      exact names `Id`, `id` and `_id`; 4 means it is not a candidate. */
  function Rank(p: Property): nat
  {
    if p.hasBsonId then 0
    else if p.name == "Id" then 1
    else if p.name == "id" then 2
    else if p.name == "_id" then 3
    else 4
  }

  /** Property `i` is the identifier: it is a candidate of the best rank
      present, and no earlier property has that rank. */
  predicate IsIdChoice(props: seq<Property>, i: int)
  {
    && 0 <= i < |props|
    && Rank(props[i]) < 4
    && (forall j :: 0 <= j < |props| ==> Rank(props[i]) <= Rank(props[j]))
    && (forall j :: 0 <= j < i ==> Rank(props[j]) != Rank(props[i]))
  }

  /** The identifier's position, searched as the client does: the first
      [BsonId] property, else the property named `Id`, else `id`, else
      `_id` (names compared case-sensitively). */
  function IdPropertyIndex(props: seq<Property>): (r: Option<nat>)
    ensures r.Some? ==> IsIdChoice(props, r.value)
    ensures r.None? ==> forall j :: 0 <= j < |props| ==> Rank(props[j]) == 4
  {
    var marked := FirstIndex(props, (p: Property) => p.hasBsonId);
    if marked.Some? then marked
    else
      var upper := FirstIndex(props, (p: Property) => p.name == "Id");
      if upper.Some? then upper
      else
        var lower := FirstIndex(props, (p: Property) => p.name == "id");
        if lower.Some? then lower
        else FirstIndex(props, (p: Property) => p.name == "_id")
  }

  /** GetIdProperty's discovery step: the identifier property, or the
      "primary key can not be found" failure when no property qualifies. */
  function ResolveIdProperty(t: TypeDescriptor): (r: Result<Property, Error>)
    ensures r.Success? <==> exists i :: 0 <= i < |t.properties| && Rank(t.properties[i]) < 4
    ensures r.Failure? ==> r.error == PrimaryKeyNotFound
    ensures r.Success? ==> r.value in t.properties
    ensures r.Success? ==> exists i :: IsIdChoice(t.properties, i) && t.properties[i] == r.value
    ensures r.Success? ==> forall i :: IsIdChoice(t.properties, i) ==> t.properties[i] == r.value
    ensures (exists i :: 0 <= i < |t.properties| && t.properties[i].hasBsonId) ==> r.Success? && r.value.hasBsonId
  {
    match IdPropertyIndex(t.properties)
    case Some(i) => Success(t.properties[i])
    case None => Failure(PrimaryKeyNotFound)
  }

  /** GetTableName's discovery step: the [Table] name if present, else the
      type's own name. It never fails. */
  function TableName(t: TypeDescriptor): string
  {
    match t.table
    case Some(n) => n
    case None => t.name
  }
}

=== FILE: metadata_cache.dfy ===
/** The two per-type caches, `_tableNames` and `_idProperties`, with the
    GetOrAdd lookups that fill them. The caches are threaded through the
    operations as a value; each lookup returns what it found together with
    the cache after the call. */
module MetadataCache {
  import opened Wrappers
  import opened Errors
  import opened Metadata

  datatype Cache = Cache(
    tableNames: map<TypeDescriptor, string>,
    idProperties: map<TypeDescriptor, Property>)

  /** Both caches as a freshly constructed client holds them. */
  const EmptyCache: Cache := Cache(map[], map[])

  /** Every cached entry is what discovery computes for its type. */
  predicate Coherent(c: Cache)
  {
    && (forall t :: t in c.tableNames ==> c.tableNames[t] == TableName(t))
    && (forall t :: t in c.idProperties ==> ResolveIdProperty(t) == Success(c.idProperties[t]))
  }

  /** GetTableName: a hit returns the stored name and leaves the cache as it
      is; a miss computes the name and stores it under `t` only. */
  function GetTableName(c: Cache, t: TypeDescriptor): (r: (string, Cache))
    ensures Coherent(c) ==> r.0 == TableName(t) && Coherent(r.1)
    ensures t in c.tableNames ==> r.0 == c.tableNames[t] && r.1 == c
    ensures t in r.1.tableNames && r.1.tableNames[t] == r.0
    ensures r.1.tableNames.Keys == c.tableNames.Keys + {t}
    ensures forall u :: u in c.tableNames ==> r.1.tableNames[u] == c.tableNames[u]
    ensures r.1.idProperties == c.idProperties
  {
    if t in c.tableNames then (c.tableNames[t], c)
    else
      var name := TableName(t);
      (name, c.(tableNames := c.tableNames[t := name]))
  }

  /** GetIdProperty: a hit returns the stored property; a miss runs the
      discovery and stores its result, except when discovery throws, in
      which case nothing is added. */
  function GetIdProperty(c: Cache, t: TypeDescriptor): (r: (Result<Property, Error>, Cache))
    ensures Coherent(c) ==> r.0 == ResolveIdProperty(t) && Coherent(r.1)
    ensures t in c.idProperties ==> r.0 == Success(c.idProperties[t]) && r.1 == c
    ensures r.0.Failure? ==> r.1 == c
    ensures r.0.Success? ==> t in r.1.idProperties && r.1.idProperties[t] == r.0.value
    ensures r.0.Success? ==> r.1.idProperties.Keys == c.idProperties.Keys + {t}
    ensures forall u :: u in c.idProperties ==> r.1.idProperties[u] == c.idProperties[u]
    ensures r.1.tableNames == c.tableNames
  {
    if t in c.idProperties then (Success(c.idProperties[t]), c)
    else
      match ResolveIdProperty(t)
      case Success(p) => (Success(p), c.(idProperties := c.idProperties[t := p]))
      case Failure(e) => (Failure(e), c)
  }

  /** A second table-name lookup for the same type returns the same name
      as the first and changes nothing. */
  lemma TableNameLookupIdempotent(c: Cache, t: TypeDescriptor)
    ensures GetTableName(GetTableName(c, t).1, t) == GetTableName(c, t)
  {
  }

  /** A second identifier lookup for the same type returns the same result
      as the first and changes nothing, whether the first succeeded or
      failed. */
  lemma IdPropertyLookupIdempotent(c: Cache, t: TypeDescriptor)
    ensures GetIdProperty(GetIdProperty(c, t).1, t) == GetIdProperty(c, t)
  {
  }

  /** The order of lookups does not matter: two lookups for types `a` and
      `b`, in either order, return the same names and leave the same
      cache. */
  lemma TableNameLookupsCommute(c: Cache, a: TypeDescriptor, b: TypeDescriptor)
    ensures GetTableName(GetTableName(c, a).1, b).0 == GetTableName(c, b).0
    ensures GetTableName(GetTableName(c, a).1, b).1 == GetTableName(GetTableName(c, b).1, a).1
  {
  }
}

=== FILE: wrappers.dfy ===
/** Option and Result, used throughout the model in place of C# null
    references and thrown exceptions. */
module Wrappers {

  datatype Option<+T> = None | Some(value: T)

  datatype Result<+R, +E> = Success(value: R) | Failure(error: E)
}
